=== FILE: README.md ===
# Door and view coordinator of CarJsShowcase, in Dafny

CarJsShowcase is a three.js car viewer. Its one piece of real logic is the
coordinator in `animation.js`:

- a door toggle drives nine articulated parts between a closed and an open
  pose, together with a camera zoom, sounds and two spotlights;
- the render loop closes the doors automatically once the camera has been
  orbited behind the car, and keeps the camera above the floor;
- a view switch moves the camera and its orbit target between a front and a
  rear pose, disabling the door button while in the rear view.

`materials.js` adds the paint bookkeeping: painting the body parts, recoloring
them, and hanging the environment map on them.

This project models that coordinator as a pure state machine and proves
properties of it.

- **State.** An immutable `State` record in five groups:
  - door: the door flag, the forced-close flag and the part angles, in degrees;
  - view: the rear-view flag, the door button's disabled flag, the camera and
    its orbit target;
  - the two spotlights;
  - the work in flight: the animation chains and the pending timeouts;
  - an environment the coordinator only reads: the device profile, the clock,
    which sounds have loaded, and the painted meshes.
- **Events.** An `Event` datatype and a pure `Step`.
- **Animations.** Every `requestAnimationFrame` chain is an animation record
  `(start, kind, from, to)`. Its frame callback is the event `Advance(i)`, so
  chains interleave in any order.
- **Timeouts.** Every `setTimeout` is a timer record, fired by `FireTimer(i)` in
  any order.
- **Clock.** The clock moves only on `Elapse(dt)` with `dt >= 0`.
- **Cancellation.** None: the code never cancels an animation or a timeout, and
  the model follows it.

Files:

- `base.dfy` — optional values and removal of one element from a sequence.
- `tween.dfy` — the shared progress rule `min((now - start) / 0.5, 1)`, the two
  linear interpolation forms, and the floor clamp.
- `profile.dfy` — the mobile and desktop camera profiles and zoom poses.
- `doors.dfy` — the nine part angles, the target table, and interpolation of
  the whole pose.
- `materials.js` logic in `materials.dfy` — `applyPaintMaterial` against a
  reference definition, recolor, and the environment-map loop.
- `coordinator.dfy` — the coordinator's state, its events, and every
  transition.
- `invariants.dfy` — a state invariant, proved to hold initially and to be kept
  by every event and every run.
- `scenarios.dfy` — concrete runs on the desktop profile that exhibit the
  behaviour as written.

Four points of the code are easy to misread, and the model follows the code
in each:

- **Progress.** The code takes `min((now - start) / duration, 1)` with no lower
  clamp (animation.js:230, 270, 382). Progress still lies in [0, 1], because no
  animation starts later than the clock reads (`Invariants.ProgressInUnit`).
- **Handle.** The handle target is a rotation of -100 degrees about z
  (animation.js:187).
- **Right-hand doors.** They open to +70 degrees, because their swing is the
  negated left-hand one (animation.js:272, 274).
- **Nothing is superseded.** A new toggle or view switch never cancels an
  animation in flight, and no pending timeout is ever invalidated.
  `Scenarios.DoubleToggleDesync` and `Scenarios.ForcedCloseReraise` show what
  follows from that.

## Model

| member | source | states |
|---|---|---|
| Tween.Progress | animation.js:229-230 | progress never exceeds 1; it is at least 0 once the clock has reached the start; it is exactly 1 iff the half-second duration has elapsed; below 1 it is the elapsed fraction of the duration |
| Tween.ProgressMonotone | animation.js:269-270 | progress never decreases as the clock advances |
| Tween.Lerp | animation.js:271-278 | the scalar lerp gives the start value at progress 0 and the target exactly at progress 1, and a value between the two for progress in [0, 1] |
| Tween.LerpVec | animation.js:231 | the vector lerp gives the start point at progress 0 and the destination exactly at progress 1 |
| Tween.LerpVecAgreesWithLerp | animation.js:384-385 | the vector form `a + (b - a) t` agrees coordinate-wise with the scalar form `(1 - t) a + t b` |
| Tween.ClampToFloor | animation.js:129-132 | the camera ends at height 1 or more; only the height changes, and only when it was below 1, in which case it becomes exactly 1 |
| DeviceProfile.Resolve | animation.js:24-55 | the front pose is on the negative-z side and the rear pose on the positive-z side, both above the floor; the two targets coincide exactly on mobile; the front target lies on the car's vertical axis |
| DeviceProfile.ZoomPos | animation.js:215-219 | the opening zoom pose is on the front side, at height 17.28 on both devices, and differs from the device's front pose |
| Doors.DoorTargets | animation.js:180-188 | the targets depend only on the door flag at call time: all zero when open, the open pose (doors -70, spoiler -120, window -10, wheels -40, handle -100) when closed; the right-hand doors are the negated left-hand swing; every target is in range |
| Doors.LerpParts | animation.js:269-279 | every part is at its start at progress 0 and at its target exactly at progress 1; for progress in [0, 1], in-range endpoints give an in-range pose |
| Materials.ApplyPaintMaterial | materials.js:39-46 | absent entries stay absent and are not recorded; every present entry gets the paint material; the painted list is the old list followed by the reference list of painted present entries |
| Materials.PaintedFromCount | materials.js:39-46 | the painted list grows by exactly the number of present entries, with no deduplication |
| Materials.PaintedFromOrder | materials.js:40-44 | the present entry at index i lands at the position given by the number of present entries before it, so input order is kept |
| Materials.PaintedFromShares | materials.js:42 | every recorded mesh wears the one paint material |
| Materials.Recolor | animation.js:349-355 | every painted mesh with a material gets the new color and keeps its name and environment map; meshes without one are untouched; length is kept |
| Materials.SetEnvMap | materials.js:73-75 | every painted mesh with a material gets the environment map and keeps its name and color; meshes without one are untouched; length is kept |
| Materials.RecolorKeepsSharing | animation.js:350-353 | meshes sharing one material still share one material, recolored, after a recolor |
| Materials.SetEnvMapKeepsSharing | materials.js:73-75 | meshes sharing one material still share one material, with the map, after the environment loop |
| Materials.RecolorEnvMapCommute | materials.js:73-75 | a recolor and the environment loop commute |
| Materials.RecolorLastWins | animation.js:349-355 | two recolors equal one recolor with the later color |
| Materials.SetEnvMapLastWins | materials.js:73-75 | a second environment map replaces the first |
| Materials.PaintedFromRecolor | animation.js:349-355 | recoloring the meshes just painted with one material is painting them with that material recolored, as changing the one shared object would |
| Materials.ViewerPaintRecolor | materials.js:29-46 | after the viewer's paint material (color 0x2c2c2c, no environment map) is applied and a recolor follows, every painted part wears the paint of the new color and still no environment map |
| Coordinator.ToggleDoors | animation.js:166-318 | in the rear view: no change and only the warning. Otherwise the door flag, pose, view and lights are unchanged, every animation in flight is kept, and a door animation is appended from the current pose to the targets of the door flag at call time. On the forced path (open and flag set): the flag is cleared, only that door animation starts, and there is no timeout and no effect. Otherwise: the flag is kept, a zoom (to the front pose when closing, to the device's zoom pose when opening) starts unless the flag is set, and the engine cue is scheduled exactly when opening with the engine sound loaded |
| Coordinator.ToggleSounds | animation.js:251-313 | outside the rear view and the forced path, the camera sound restarts iff loaded and the engine sound stops iff opening with it loaded; the rear view and the forced path start neither |
| Coordinator.ToggleIgnoresDeviceWhenOpen | animation.js:212-219 | with the doors open, the toggle does the same on mobile and desktop |
| Coordinator.CompleteDoorSwing | animation.js:284-299 | the door flag is negated; having become open, the spotlight timeout (380 ms) is scheduled; having become closed, both spotlights go off at once |
| Coordinator.CompleteSwitch | animation.js:390-393 | the rear-view flag is negated and the door button is disabled exactly when the new view is the rear one |
| Coordinator.AnimateAll | animation.js:269-304 | one door frame sets every part to its interpolated angle; below progress 1 the chain stays and nothing else changes; at progress 1 the pose is the target exactly, the chain is removed, and the door flag is negated with the spotlight consequences |
| Coordinator.AnimateCamera | animation.js:229-246 | one zoom frame sets the camera to its interpolated position; below progress 1 the chain stays; at progress 1 the camera is at the destination, the chain is removed, and the engine cue follows iff the doors are closed and the engine sound loaded at that moment |
| Coordinator.AnimateSwitch | animation.js:381-394 | one switch frame interpolates camera and orbit target; below progress 1 the chain stays and the flags are unchanged; at progress 1 both are at their destinations, the chain is removed, the view flag is negated and the button follows it |
| Coordinator.AdvanceAnimation | animation.js:281-283 | a chain stays in flight exactly while its progress is below 1; the door flag changes only when a door chain reaches progress 1 and the view flag only when a switch chain does |
| Coordinator.RunTimer | animation.js:289-294 | a fired timeout is removed; the spotlight timeout turns both spotlights on; an engine cue plays the engine and shakes the camera with its strength and duration; nothing else changes |
| Coordinator.AnimateScene | animation.js:96-133 | after every frame the camera is at height 1 or more, and only its height changed; when the doors are open, the camera is at positive z and the flag is clear, exactly one closing door animation starts with no zoom and no sound and the flag ends clear, or in the rear view the toggle is refused and the flag stays set; otherwise nothing else changes |
| Coordinator.SwitchCameraView | animation.js:361-397 | the door button is disabled; the door flag, pose, camera, lights and timeouts do not change at once; every animation in flight is kept. A switch from the current camera and target to the front pose and target (from the rear view) or the rear ones (otherwise) is appended. With the doors open in the front view, the embedded toggle puts a closing door animation before it, and before that a zoom back to the front pose when the forced-close flag is clear, so zoom and switch then pull the camera towards different poses; when the flag is set the toggle clears it instead. With the doors open in the rear view the toggle only warns. The camera sound restarts iff loaded |
| Coordinator.SwitchEmbedsToggle | animation.js:362 | with the doors open, a switch leaves the door state, animations and timeouts the toggle leaves, with the view switch appended, and the toggle's effects come first |
| Coordinator.CloseDoorsNow | animation.js:324-341 | the pose jumps to the closed targets, both spotlights go off and the door flag is cleared; nothing else changes, animations and timeouts included |
| Coordinator.Step | animation.js:281-285 | the clock never runs backwards and the profile is fixed; the door flag changes only when a door chain reaches progress 1, the view flag only when a switch chain does, and the painted meshes only on a recolor or the environment map |
| Invariants.InitValid | script.js:86-91 | the state after binding satisfies the invariant |
| Invariants.ProgressInUnit | animation.js:270 | in a valid state, every animation's progress lies in [0, 1] |
| Invariants.HandleBounded | animation.js:185-188 | in a valid state the handle angle lies in [-100, 0], so start and target of every handle interpolation differ by less than a half turn |
| Invariants.ToggleKeepsValid | animation.js:166-318 | a toggle keeps the invariant |
| Invariants.SceneKeepsValid | animation.js:106-132 | the render loop's frame keeps the invariant |
| Invariants.AdvanceKeepsValid | animation.js:269-304 | a frame of any chain keeps the invariant: angles stay in range, and the button matches the view once no switch is in flight |
| Invariants.TimerKeepsValid | animation.js:289-294 | a fired timeout keeps the invariant |
| Invariants.SwitchKeepsValid | animation.js:361-397 | a view switch keeps the invariant |
| Invariants.StepKeepsValid | animation.js:96-133 | every event keeps the invariant |
| Invariants.RunKeepsValid | animation.js:96-397 | every run of events keeps the invariant, so every state reachable from the initial one satisfies it |
| Invariants.RunClockMonotone | animation.js:168 | over any run, the clock never runs backwards |
| Invariants.CloseDoorsNowKeepsValid | animation.js:324-341 | the instant close keeps the invariant |
| Invariants.RunAppend | animation.js:96-397 | running two event lists in turn is running their concatenation |
| Invariants.HalfCycle | animation.js:166-304 | from any settled state (nothing in flight, front view, parts at the targets matching the door flag) with the forced-close flag clear, a toggle whose zoom and door chain both run to completion, in either order, negates the door flag, puts the parts at the targets fixed by the old flag, the camera at the zoom destination, and ends settled again; closing turns the lights off; opening schedules the spotlight timeout and, with the engine sound loaded, the toggle's engine cue; the zoom's engine cue is added exactly when the engine sound is loaded and the zoom ends while the flag still says closed (opening with the zoom first, or closing with the door chain first) |
| Invariants.RoundTrip | animation.js:166-304 | from any such settled state, two completed toggle cycles give back the door state exactly, on either device and in either completion order for each cycle |
| Scenarios.OpenScenario | animation.js:166-318 | on the desktop, toggling and letting the chains and the spotlight timeout finish ends with the doors at the open pose, the flag set, the camera at the zoom pose, the lights on and nothing in flight |
| Scenarios.CloseScenario | animation.js:166-318 | toggling again from there returns exactly to the initial state, one second later |
| Scenarios.DoubleToggleDesync | animation.js:284 | two quick toggles both drive to the open pose and each completion negates the flag: the doors stand open with the lights on while the flag says closed |
| Scenarios.ForcedCloseReraise | animation.js:113-117 | with the camera behind the car, two frames start two closing animations with no zoom and no sound; after both finish the doors are closed while the flag says open, and the spotlight timeout is pending |
| Scenarios.RearViewScenario | animation.js:390-393 | a switch to the rear disables the door button and moves camera and target to the rear pose; a toggle there changes nothing and only warns |

## Left out

- Everything in `script.js` except three facts: the two spotlights exist and
  start hidden (script.js:86-91), and the view starts as front (script.js:217).
  The rest is renderer, scene, loader, audio-loading and DOM wiring.
- The door button's HTML wiring is not part of this model. `Toggle` calls the
  toggle directly and ignores the disabled flag, as the render loop's own call
  does. The button starts enabled.
- `shakeCamera` (animation.js:138-159) is reduced to the effect
  `CameraShake(strength, ms)`. What that costs the model:
  - for its whole duration the shake overwrites the camera position on every
    frame with the position captured when it started plus random jitter
    (animation.js:140, 148-150), and on its last frame it copies that position
    back (animation.js:154);
  - with the engine sound loaded, the 800 ms cue's `shakeCamera(2, 1000)` thus
    holds the camera near the zoom pose from 0.8 s to 1.8 s after every opening
    toggle; a view switch that ends while the shake still runs (one started
    before 1.3 s) still flips the view flag and moves the orbit target to the
    rear target, but the shake then puts the camera back at the zoom pose. A
    switch started later is still running when the shake copies its start
    position back; the switch writes the camera after the shake in every
    frame, so it ends with the camera at the rear pose;
  - so the exact camera destinations in `AnimateCamera`, `AnimateSwitch` and
    `SwitchCameraView`, and the "nothing else changes" of `RunTimer`, hold only
    while no shake is running.
- The sounds are reduced to the effects `CameraSoundRestart`,
  `EngineSoundStop` and `EngineSoundPlay`. Their asynchronous loading is the
  pair of events `CameraSoundLoaded` and `EngineSoundLoaded`.
- `OrbitControls.update` is left out. User camera motion is the free event
  `Orbit(position, target)`. `camera.rotation.set` and
  `updateProjectionMatrix` are not modelled either. The update runs at setup
  (animation.js:59), on every frame (animation.js:98) and in every switch frame
  (animation.js:386), and each run clamps the camera's distance from the orbit
  target to [40, 200] (script.js:58-59). What that costs the model:
  - all three mobile poses lie more than 200 from the target (front about 514,
    zoom about 353, rear about 205), so on mobile the camera never actually sits
    at the front, zoom or rear pose, and "the camera is at the destination
    exactly" in `AnimateCamera` and `AnimateSwitch` holds on the desktop only;
  - halfway through a desktop switch the straight path passes about 8 from the
    target, so the real camera is pushed out to distance 40 there;
  - damping is never enabled, so it plays no part.
- Real time is left out:
  - the 350, 380 and 800 ms delays are labels on the timer records;
  - the delays do not order the firing;
  - the clock does not advance within one event.
- The first animation frame, which the code runs synchronously inside the
  toggle and the switch, is not modelled. It happens at progress 0 and changes
  nothing, so only the record of the chain is kept.
- Quaternions and `slerpQuaternions` are not modelled as such: the handle is
  an angle about z in degrees, interpolated linearly. This is exact on the
  reals. Spherical interpolation between two rotations about z whose angles
  differ by less than a half turn is the rotation by `a0 + t (a1 - a0)`, at
  constant angular speed. `Invariants.HandleBounded` keeps the handle angle
  within [-100, 0], so start and target always differ by less than a half turn.
- Radians and the degree conversion (animation.js:180) are not modelled: angles
  are in degrees.
- JavaScript doubles are modelled as exact reals, so float rounding is not
  modelled.
- `matchMedia` and the user-agent test are left out. The device is the boolean
  given to `Toggle` and `Init`, read again at every toggle, as the code does.
- The unused direction and angle computation at animation.js:107-110 is left
  out.
- The initial part angles of the loaded model are taken to be 0 (the rest
  pose).
- The model starts after the model is bound, with all nine named parts
  present. A toggle before binding, or with a part missing from the loaded
  model, throws a TypeError when it reads that part's rotation (animation.js:170-178).
  A switch before binding throws when it reads the camera (animation.js:367).
  Neither case is modelled.
- Material constants, HDR loading, PMREM and the floor textures in
  `materials.js` are library objects with no logic, and are left out.
- A material is reduced to its color and environment map.
- Shared material objects are modelled by value. `RecolorKeepsSharing` and
  `SetEnvMapKeepsSharing` show that this agrees with updating the one shared
  object.
- The environment map may load before the car model, when nothing is painted
  yet. The `EnvironmentLoaded` event is only modelled after binding. Before
  binding the loop runs over an empty list.
- `Invariants.RoundTrip` is stated for settled states only. It fails from the
  reachable state that `Scenarios.DoubleToggleDesync` ends in: there the parts
  stand at the open pose with the door flag false, which is not settled, and
  the next toggle drives to the open pose again.
- `Step` ignores `Advance` and `FireTimer` for an index with nothing in flight.
  The browser never delivers those.

=== FILE: base.dfy ===
/** Small shared helpers: an optional value (JavaScript's null/undefined) and
    removal of one element from a sequence (a finished callback chain). */
module Base {

  /** A value that may be absent, as a JavaScript `null`/`undefined` entry. */
  datatype Option<+T> = None | Some(value: T)

  /** `s` without its element at index `i`, the others kept in order. */
  function RemoveAt<T>(s: seq<T>, i: nat): (r: seq<T>)
    requires i < |s|
    ensures |r| == |s| - 1
    ensures forall k :: 0 <= k < i ==> r[k] == s[k]
    ensures forall k :: i <= k < |r| ==> r[k] == s[k + 1]
  {
    s[..i] + s[i + 1..]
  }
}

=== FILE: coordinator.dfy ===
/** The door/view coordinator of the viewer as a discrete machine. Its state
    is the logical door flag, the forced-close flag and the nine part angles;
    the rear-view flag, the door button's disabled flag and the camera pose;
    the two spotlights; and the work still in flight: one record per
    animation chain that keeps asking for the next frame, and one per pending
    timeout.

    Time is the clock the animations read; only `Elapse` advances it. Each
    animation chain's frame callback is the event `Advance(i)`, which the
    browser may run in any order relative to the other chains and to the
    render loop's own frame (`Frame`); a pending timeout is `FireTimer(i)`,
    again in any order. In-flight animations are never cancelled. */
module Coordinator {
  import opened Base
  import opened Tween
  import opened DeviceProfile
  import opened Doors
  import opened Materials

  /** What an animation chain interpolates, from the values captured when it
      started to its destination. */
  datatype AnimKind =
    | DoorSwing(fromParts: Parts, toParts: Parts)
    | CameraZoom(camFrom: Vec3, camTo: Vec3)
    | ViewSwitch(posFrom: Vec3, posTo: Vec3, targetFrom: Vec3, targetTo: Vec3)

  /** An animation chain in flight, started at clock time `start`. */
  datatype Anim = Anim(start: real, kind: AnimKind)

  /** What a pending timeout does when it fires. */
  datatype TimerAction =
    | ShowSpotlights
    | PlayEngine(shakeStrength: real, shakeMs: nat)

  /** A pending timeout; `delayMs` is its scheduled delay, kept as a label. */
  datatype Timer = Timer(delayMs: nat, action: TimerAction)

  /** Side effects outside the modelled state: the console warning and the
      audio and camera-shake cues. */
  datatype Effect =
    | RearViewWarning
    | CameraSoundRestart
    | EngineSoundStop
    | EngineSoundPlay
    | CameraShake(strength: real, durationMs: nat)

  /** The logical door flag, the forced-close flag and the part angles. */
  datatype DoorState = DoorState(doorOpen: bool, forceClose: bool, parts: Parts)

  /** The viewpoint flag, the door button and the camera with its orbit target. */
  datatype ViewState = ViewState(rearView: bool, doorButtonDisabled: bool, camera: Vec3, orbitTarget: Vec3)

  datatype Lights = Lights(spotlightLeft: bool, spotlightRight: bool)

  /** What the coordinator reads but no animation, timeout or toggle writes:
      the device profile, the clock, which sounds have loaded, the paint. */
  datatype Env = Env(profile: Profile, clock: real, cameraSoundLoaded: bool, engineSoundLoaded: bool,
                     painted: seq<Mesh>)

  datatype State = State(
    door: DoorState,
    view: ViewState,
    lights: Lights,
    anims: seq<Anim>,
    timers: seq<Timer>,
    env: Env)

  datatype StepResult = StepResult(next: State, effects: seq<Effect>)

  type Seconds = r: real | 0.0 <= r witness 0.0

  datatype Event =
    | Elapse(dt: Seconds)
    | Frame
    | Advance(anim: nat)
    | FireTimer(timer: nat)
    | Toggle(isMobile: bool)
    | SwitchView
    | ChangeColor(hex: Color)
    | EnvironmentLoaded(envMap: TextureId)
    | Orbit(position: Vec3, target: Vec3)
    | CameraSoundLoaded
    | EngineSoundLoaded

  const EngineCueDelayMs: nat := 800
  const ZoomEngineCueDelayMs: nat := 350
  const SpotlightDelayMs: nat := 380

  /** The cue a toggle schedules when the doors start to open. */
  const ToggleEngineCue: Timer := Timer(EngineCueDelayMs, PlayEngine(2.0, 1000))

  /** The cue the zoom schedules when it ends with the doors still closed. */
  const ZoomEngineCue: Timer := Timer(ZoomEngineCueDelayMs, PlayEngine(0.3, 400))

  /** The timeout that turns the spotlights on after the doors have opened. */
  const SpotlightCue: Timer := Timer(SpotlightDelayMs, ShowSpotlights)

  const LightsOff: Lights := Lights(false, false)
  const LightsOn: Lights := Lights(true, true)

  /** The state once the scene is bound: the camera at the profile's front
      pose, doors closed at rest, front view, lights off, no sound loaded yet,
      and `painted` the meshes painted before binding. */
  function Init(isMobile: bool, painted: seq<Mesh>): State {
    var p := Resolve(isMobile);
    State(DoorState(false, false, Rest), ViewState(false, false, p.frontPos, p.frontTarget),
          LightsOff, [], [], Env(p, 0.0, false, false, painted))
  }

  /** True when no view-switch animation is in flight. */
  predicate NoSwitchInFlight(anims: seq<Anim>) {
    forall k :: 0 <= k < |anims| ==> !anims[k].kind.ViewSwitch?
  }

  /** The zoom destination of a toggle: back to the front pose when the doors
      are open (closing), the device's zoom pose otherwise (opening). */
  function ZoomDestination(s: State, isMobile: bool): Vec3 {
    if s.door.doorOpen then s.env.profile.frontPos else ZoomPos(isMobile)
  }

  /** `toggleDoors`, at the current clock, with `isMobile` the form-factor
      test it evaluates. In the rear view it only warns. Otherwise it never
      changes the door flag, the pose, the view or the lights at once: it
      keeps every animation already in flight, and starts a door animation
      from the current pose to the targets fixed by the door flag at call
      time. With the doors open and the forced-close flag raised it clears the
      flag and does nothing else. Otherwise it restarts the camera sound if
      loaded, starts a zoom unless the forced-close flag is raised, and when
      opening with the engine sound loaded stops it and schedules its cue. */
  function ToggleDoors(s: State, isMobile: bool): (r: StepResult)
    ensures s.view.rearView ==> r.next == s && r.effects == [RearViewWarning]
    ensures !s.view.rearView ==>
      && r.next.view == s.view && r.next.lights == s.lights && r.next.env == s.env
      && r.next.door == s.door.(forceClose := r.next.door.forceClose)
      && |s.anims| < |r.next.anims|
      && r.next.anims[..|s.anims|] == s.anims
      && r.next.anims[|r.next.anims| - 1] == Anim(s.env.clock, DoorSwing(s.door.parts, DoorTargets(s.door.doorOpen)))
      && |s.timers| <= |r.next.timers| && r.next.timers[..|s.timers|] == s.timers
    // forced path: only the part animation
    ensures !s.view.rearView && s.door.doorOpen && s.door.forceClose ==>
      && !r.next.door.forceClose
      && |r.next.anims| == |s.anims| + 1
      && r.next.timers == s.timers
      && r.effects == []
    // normal path
    ensures !s.view.rearView && !(s.door.doorOpen && s.door.forceClose) ==>
      && r.next.door.forceClose == s.door.forceClose
      && |r.next.anims| == |s.anims| + (if s.door.forceClose then 1 else 2)
      && (!s.door.forceClose ==>
            r.next.anims[|s.anims|] == Anim(s.env.clock, CameraZoom(s.view.camera, ZoomDestination(s, isMobile))))
      && r.next.timers == s.timers + (if !s.door.doorOpen && s.env.engineSoundLoaded then [ToggleEngineCue] else [])
  {
    var door := Anim(s.env.clock, DoorSwing(s.door.parts, DoorTargets(s.door.doorOpen)));
    if s.view.rearView then
      StepResult(s, [RearViewWarning])
    else if s.door.doorOpen && s.door.forceClose then
      StepResult(s.(door := s.door.(forceClose := false), anims := s.anims + [door]), [])
    else
      var sound := if s.env.cameraSoundLoaded then [CameraSoundRestart] else [];
      var zoom := if !s.door.forceClose then [Anim(s.env.clock, CameraZoom(s.view.camera, ZoomDestination(s, isMobile)))] else [];
      var opening := !s.door.doorOpen && s.env.engineSoundLoaded;
      var cue := if opening then [ToggleEngineCue] else [];
      var stop := if opening then [EngineSoundStop] else [];
      StepResult(s.(anims := s.anims + (zoom + [door]), timers := s.timers + cue), sound + stop)
  }

  /** The sounds of a toggle outside the rear view and the forced path: the
      camera sound restarts exactly when it has loaded, and the engine sound
      is stopped (to be replayed by its cue) exactly when opening with it
      loaded. The rear view and the forced path start no sound at all. */
  lemma ToggleSounds(s: State, isMobile: bool)
    ensures var r := ToggleDoors(s, isMobile);
      && (!s.view.rearView && !(s.door.doorOpen && s.door.forceClose) ==>
            && (CameraSoundRestart in r.effects <==> s.env.cameraSoundLoaded)
            && (EngineSoundStop in r.effects <==> !s.door.doorOpen && s.env.engineSoundLoaded))
      && (s.view.rearView || (s.door.doorOpen && s.door.forceClose) ==>
            CameraSoundRestart !in r.effects && EngineSoundStop !in r.effects)
  {
  }

  /** The device test is read only on the opening path: with the doors open
      the toggle does the same on every screen. */
  lemma ToggleIgnoresDeviceWhenOpen(s: State)
    requires s.door.doorOpen
    ensures ToggleDoors(s, true) == ToggleDoors(s, false)
  {
  }

  /** The end of a door animation: the door flag is negated. Having become
      open, the spotlights are scheduled to come on; having become closed,
      they go off at once. */
  function CompleteDoorSwing(s: State): (r: StepResult)
    ensures r.next.door == s.door.(doorOpen := !s.door.doorOpen)
    ensures r.next.door.doorOpen ==> r.next.timers == s.timers + [SpotlightCue] && r.next.lights == s.lights
    ensures !r.next.door.doorOpen ==> r.next.timers == s.timers && r.next.lights == LightsOff
    ensures r.next.view == s.view && r.next.env == s.env && r.next.anims == s.anims && r.effects == []
  {
    if !s.door.doorOpen then
      StepResult(s.(door := s.door.(doorOpen := true), timers := s.timers + [SpotlightCue]), [])
    else
      StepResult(s.(door := s.door.(doorOpen := false), lights := LightsOff), [])
  }

  /** The end of a zoom: with the doors still closed and the engine sound
      loaded, the sound is stopped and its cue scheduled; otherwise nothing. */
  function CompleteZoom(s: State): StepResult
  {
    if !s.door.doorOpen && s.env.engineSoundLoaded then
      StepResult(s.(timers := s.timers + [ZoomEngineCue]), [EngineSoundStop])
    else
      StepResult(s, [])
  }

  /** The end of a view switch: the rear-view flag is negated and the door
      button is disabled exactly when the new view is the rear one. */
  function CompleteSwitch(s: State): (r: StepResult)
    ensures r.next.view.rearView == !s.view.rearView
    ensures r.next.view.doorButtonDisabled == r.next.view.rearView
    ensures r.next == s.(view := r.next.view)
    ensures r.next.view.camera == s.view.camera && r.next.view.orbitTarget == s.view.orbitTarget
    ensures r.effects == []
  {
    StepResult(s.(view := s.view.(rearView := !s.view.rearView, doorButtonDisabled := !s.view.rearView)), [])
  }

  /** One frame of the door animation `i` (`animateAll`): every part is set
      to its interpolated angle; below progress 1 it asks for another frame,
      at progress 1 the pose is the target exactly, the chain ends and the
      door flag is negated (with the spotlight consequences of
      `CompleteDoorSwing`). */
  function AnimateAll(s: State, i: nat): (r: StepResult)
    requires i < |s.anims| && s.anims[i].kind.DoorSwing?
    ensures var a := s.anims[i]; var t := Progress(s.env.clock, a.start);
      && r.next.view == s.view && r.next.env == s.env && r.effects == []
      && r.next.door.forceClose == s.door.forceClose
      && r.next.door.parts == LerpParts(a.kind.fromParts, a.kind.toParts, t)
      && (t < 1.0 ==>
            r.next.anims == s.anims && r.next.timers == s.timers && r.next.lights == s.lights
            && r.next.door.doorOpen == s.door.doorOpen)
      && (t == 1.0 ==>
            && r.next.anims == RemoveAt(s.anims, i)
            && r.next.door.parts == a.kind.toParts
            && r.next.door.doorOpen == !s.door.doorOpen
            && (r.next.door.doorOpen ==> r.next.timers == s.timers + [SpotlightCue] && r.next.lights == s.lights)
            && (!r.next.door.doorOpen ==> r.next.timers == s.timers && r.next.lights == LightsOff))
  {
    var a := s.anims[i];
    var t := Progress(s.env.clock, a.start);
    var moved := s.(door := s.door.(parts := LerpParts(a.kind.fromParts, a.kind.toParts, t)));
    if t < 1.0 then StepResult(moved, [])
    else CompleteDoorSwing(moved.(anims := RemoveAt(s.anims, i)))
  }

  /** One frame of the zoom `i` (`animateCamera`): the camera is set to its
      interpolated position; below progress 1 it asks for another frame, at
      progress 1 the camera is at the destination exactly, the chain ends and
      `CompleteZoom` runs. */
  function AnimateCamera(s: State, i: nat): (r: StepResult)
    requires i < |s.anims| && s.anims[i].kind.CameraZoom?
    ensures var a := s.anims[i]; var t := Progress(s.env.clock, a.start);
      && r.next.door == s.door && r.next.lights == s.lights && r.next.env == s.env
      && r.next.view == s.view.(camera := LerpVec(a.kind.camFrom, a.kind.camTo, t))
      && (t < 1.0 ==> r.next.anims == s.anims && r.next.timers == s.timers && r.effects == [])
      && (t == 1.0 ==>
            && r.next.anims == RemoveAt(s.anims, i)
            && r.next.view.camera == a.kind.camTo
            && (!s.door.doorOpen && s.env.engineSoundLoaded ==>
                  r.next.timers == s.timers + [ZoomEngineCue] && r.effects == [EngineSoundStop])
            && (!(!s.door.doorOpen && s.env.engineSoundLoaded) ==> r.next.timers == s.timers && r.effects == []))
  {
    var a := s.anims[i];
    var t := Progress(s.env.clock, a.start);
    var moved := s.(view := s.view.(camera := LerpVec(a.kind.camFrom, a.kind.camTo, t)));
    if t < 1.0 then StepResult(moved, [])
    else CompleteZoom(moved.(anims := RemoveAt(s.anims, i)))
  }

  /** One frame of the view switch `i` (`animateSwitch`): camera and orbit
      target are set to their interpolated values; below progress 1 it asks
      for another frame, at progress 1 both are at their destinations
      exactly, the chain ends and `CompleteSwitch` runs. */
  function AnimateSwitch(s: State, i: nat): (r: StepResult)
    requires i < |s.anims| && s.anims[i].kind.ViewSwitch?
    ensures var a := s.anims[i]; var t := Progress(s.env.clock, a.start);
      && r.next.door == s.door && r.next.lights == s.lights && r.next.env == s.env
      && r.next.timers == s.timers && r.effects == []
      && r.next.view.camera == LerpVec(a.kind.posFrom, a.kind.posTo, t)
      && r.next.view.orbitTarget == LerpVec(a.kind.targetFrom, a.kind.targetTo, t)
      && (t < 1.0 ==>
            r.next.anims == s.anims && r.next.view.rearView == s.view.rearView
            && r.next.view.doorButtonDisabled == s.view.doorButtonDisabled)
      && (t == 1.0 ==>
            && r.next.anims == RemoveAt(s.anims, i)
            && r.next.view.camera == a.kind.posTo && r.next.view.orbitTarget == a.kind.targetTo
            && r.next.view.rearView == !s.view.rearView
            && r.next.view.doorButtonDisabled == r.next.view.rearView)
  {
    var a := s.anims[i];
    var t := Progress(s.env.clock, a.start);
    var moved := s.(view := s.view.(camera := LerpVec(a.kind.posFrom, a.kind.posTo, t),
                                    orbitTarget := LerpVec(a.kind.targetFrom, a.kind.targetTo, t)));
    if t < 1.0 then StepResult(moved, [])
    else CompleteSwitch(moved.(anims := RemoveAt(s.anims, i)))
  }

  /** The frame callback of animation `i`, whichever kind it is: it stays in
      flight exactly while its progress is below 1. */
  function AdvanceAnimation(s: State, i: nat): (r: StepResult)
    requires i < |s.anims|
    ensures r.next.env == s.env && r.next.door.forceClose == s.door.forceClose
    ensures var t := Progress(s.env.clock, s.anims[i].start);
      && (t < 1.0 ==> r.next.anims == s.anims)
      && (t == 1.0 ==> r.next.anims == RemoveAt(s.anims, i))
    ensures r.next.door.doorOpen != s.door.doorOpen ==>
      s.anims[i].kind.DoorSwing? && Progress(s.env.clock, s.anims[i].start) == 1.0
    ensures r.next.view.rearView != s.view.rearView ==>
      s.anims[i].kind.ViewSwitch? && Progress(s.env.clock, s.anims[i].start) == 1.0
  {
    match s.anims[i].kind
    case DoorSwing(_, _) => AnimateAll(s, i)
    case CameraZoom(_, _) => AnimateCamera(s, i)
    case ViewSwitch(_, _, _, _) => AnimateSwitch(s, i)
  }

  /** A pending timeout `i` fires and is dropped: the spotlight timer turns
      both spotlights on; an engine cue plays the engine sound and shakes the
      camera. */
  function RunTimer(s: State, i: nat): (r: StepResult)
    requires i < |s.timers|
    ensures r.next == s.(timers := RemoveAt(s.timers, i), lights := r.next.lights)
    ensures s.timers[i].action.ShowSpotlights? ==> r.next.lights == LightsOn && r.effects == []
    ensures s.timers[i].action.PlayEngine? ==>
      && r.next.lights == s.lights
      && r.effects == [EngineSoundPlay, CameraShake(s.timers[i].action.shakeStrength, s.timers[i].action.shakeMs)]
  {
    var rest := s.(timers := RemoveAt(s.timers, i));
    match s.timers[i].action
    case ShowSpotlights => StepResult(rest.(lights := LightsOn), [])
    case PlayEngine(strength, ms) => StepResult(rest, [EngineSoundPlay, CameraShake(strength, ms)])
  }

  /** The auto-close condition the render loop tests: doors open, camera on
      the positive-z side, forced-close flag clear. */
  predicate AutoCloseDue(s: State) {
    s.door.doorOpen && 0.0 < s.view.camera.z && !s.door.forceClose
  }

  /** The render loop's own frame (`animateScene`). When the auto-close
      condition holds it raises the forced-close flag and calls the toggle,
      which (outside the rear view) takes the forced path: it clears the flag
      again and starts only a closing door animation, with no zoom and no
      sound. In the rear view the toggle is refused and the flag stays
      raised. Otherwise nothing but the floor clamp happens. After every frame
      the camera is at height 1 or more, and only its height is changed. */
  function AnimateScene(s: State): (r: StepResult)
    ensures r.next.view == s.view.(camera := ClampToFloor(s.view.camera))
    ensures r.next.lights == s.lights && r.next.env == s.env && r.next.timers == s.timers
    ensures r.next.door == s.door.(forceClose := r.next.door.forceClose)
    ensures !AutoCloseDue(s) ==>
      r.next.door == s.door && r.next.anims == s.anims && r.effects == []
    ensures AutoCloseDue(s) && !s.view.rearView ==>
      && !r.next.door.forceClose
      && r.next.anims == s.anims + [Anim(s.env.clock, DoorSwing(s.door.parts, Rest))]
      && r.effects == []
    ensures AutoCloseDue(s) && s.view.rearView ==>
      r.next.door.forceClose && r.next.anims == s.anims && r.effects == [RearViewWarning]
  {
    // The toggle is only called with the doors open, where the device test
    // is not read (ToggleIgnoresDeviceWhenOpen).
    var r := if AutoCloseDue(s)
      then ToggleDoors(s.(door := s.door.(forceClose := true)), false)
      else StepResult(s, []);
    StepResult(r.next.(view := r.next.view.(camera := ClampToFloor(r.next.view.camera))), r.effects)
  }

  /** The view a switch heads for: the front pose and target from the rear
      view, the rear ones otherwise. */
  function SwitchDestination(s: State): (Vec3, Vec3) {
    if s.view.rearView then (s.env.profile.frontPos, s.env.profile.frontTarget)
    else (s.env.profile.rearPos, s.env.profile.rearTarget)
  }

  /** `switchCameraView`. With the doors open it first calls the toggle: in
      the front view that starts a closing door animation, preceded by a zoom
      back to the front pose unless the forced-close flag is raised, in which
      case the flag is cleared instead; in the rear view the toggle is refused
      with its warning. Then it disables the door button and starts a view
      switch from the current camera and orbit target to the front pose and
      target when in the rear view, to the rear ones otherwise, restarting the
      camera sound if loaded. The door flag, the pose, the camera, the lights
      and the timeouts do not change at once, and every animation already in
      flight is kept. With the doors open in the front view and the flag
      clear, the zoom and the switch then drive the camera towards different
      poses at the same time. */
  function SwitchCameraView(s: State): (r: StepResult)
    ensures r.next.env == s.env && r.next.lights == s.lights && r.next.timers == s.timers
    ensures r.next.view == s.view.(doorButtonDisabled := true)
    ensures r.next.door == s.door.(forceClose := r.next.door.forceClose)
    ensures r.next.door.forceClose == (s.door.forceClose && !(s.door.doorOpen && !s.view.rearView))
    ensures var (pos, target) := SwitchDestination(s);
      var switch := Anim(s.env.clock, ViewSwitch(s.view.camera, pos, s.view.orbitTarget, target));
      var close := Anim(s.env.clock, DoorSwing(s.door.parts, Rest));
      var zoom := Anim(s.env.clock, CameraZoom(s.view.camera, s.env.profile.frontPos));
      && (!s.door.doorOpen || s.view.rearView ==> r.next.anims == s.anims + [switch])
      && (s.door.doorOpen && !s.view.rearView && s.door.forceClose ==> r.next.anims == s.anims + [close, switch])
      && (s.door.doorOpen && !s.view.rearView && !s.door.forceClose ==> r.next.anims == s.anims + [zoom, close, switch])
    ensures RearViewWarning in r.effects <==> s.door.doorOpen && s.view.rearView
    ensures CameraSoundRestart in r.effects <==> s.env.cameraSoundLoaded
  {
    // The toggle is only called with the doors open (ToggleIgnoresDeviceWhenOpen).
    var closing := if s.door.doorOpen then ToggleDoors(s, false) else StepResult(s, []);
    var c := closing.next;
    var (pos, target) := SwitchDestination(c);
    var sound := if c.env.cameraSoundLoaded then [CameraSoundRestart] else [];
    var switch := Anim(c.env.clock, ViewSwitch(c.view.camera, pos, c.view.orbitTarget, target));
    StepResult(c.(view := c.view.(doorButtonDisabled := true), anims := c.anims + [switch]), closing.effects + sound)
  }

  /** With the doors open a switch is the toggle followed by the switch: the
      door state, the animations and the timeouts are what the toggle leaves,
      with the view switch appended, and the toggle's effects come first. */
  lemma SwitchEmbedsToggle(s: State)
    requires s.door.doorOpen
    ensures var r := SwitchCameraView(s); var c := ToggleDoors(s, false);
      var (pos, target) := SwitchDestination(s);
      && r.next.door == c.next.door
      && r.next.timers == c.next.timers
      && r.next.anims == c.next.anims + [Anim(s.env.clock, ViewSwitch(s.view.camera, pos, s.view.orbitTarget, target))]
      && r.effects[..|c.effects|] == c.effects
  {
  }

  /** `closeDoorsNow`, which nothing in the viewer calls: the pose jumps to the
      targets a closing toggle drives to, the lights go off and the door flag
      is cleared. Animations and timeouts in flight are not cancelled. */
  function CloseDoorsNow(s: State): (r: State)
    ensures r.door.parts == DoorTargets(true)
    ensures !r.door.doorOpen && r.lights == LightsOff
    ensures r == s.(door := r.door, lights := r.lights) && r.door.forceClose == s.door.forceClose
  {
    s.(door := s.door.(parts := Rest, doorOpen := false), lights := LightsOff)
  }

  /** One event. The clock never runs backwards and the profile is fixed. The
      door flag changes only when a door animation finishes, and the rear-view
      flag only when a view switch finishes; the painted meshes change only on
      a recolor or when the environment map arrives. */
  function Step(s: State, e: Event): (r: StepResult)
    ensures s.env.clock <= r.next.env.clock && r.next.env.profile == s.env.profile
    ensures r.next.door.doorOpen != s.door.doorOpen ==>
      && e.Advance? && e.anim < |s.anims| && s.anims[e.anim].kind.DoorSwing?
      && Progress(s.env.clock, s.anims[e.anim].start) == 1.0
    ensures r.next.view.rearView != s.view.rearView ==>
      && e.Advance? && e.anim < |s.anims| && s.anims[e.anim].kind.ViewSwitch?
      && Progress(s.env.clock, s.anims[e.anim].start) == 1.0
    ensures !(e.ChangeColor? || e.EnvironmentLoaded?) ==> r.next.env.painted == s.env.painted
  {
    match e
    case Elapse(dt) => StepResult(s.(env := s.env.(clock := s.env.clock + dt)), [])
    case Frame => AnimateScene(s)
    case Advance(i) => if i < |s.anims| then AdvanceAnimation(s, i) else StepResult(s, [])
    case FireTimer(i) => if i < |s.timers| then RunTimer(s, i) else StepResult(s, [])
    case Toggle(isMobile) => ToggleDoors(s, isMobile)
    case SwitchView => SwitchCameraView(s)
    case ChangeColor(hex) => StepResult(s.(env := s.env.(painted := Recolor(s.env.painted, hex))), [])
    case EnvironmentLoaded(env) => StepResult(s.(env := s.env.(painted := SetEnvMap(s.env.painted, env))), [])
    case Orbit(p, t) => StepResult(s.(view := s.view.(camera := p, orbitTarget := t)), [])
    case CameraSoundLoaded => StepResult(s.(env := s.env.(cameraSoundLoaded := true)), [])
    case EngineSoundLoaded => StepResult(s.(env := s.env.(engineSoundLoaded := true)), [])
  }

  /** A run of events, collecting their effects in order. */
  function Run(s: State, es: seq<Event>): StepResult
    decreases |es|
  {
    if |es| == 0 then StepResult(s, [])
    else
      var first := Step(s, es[0]);
      var rest := Run(first.next, es[1..]);
      StepResult(rest.next, first.effects + rest.effects)
  }
}

=== FILE: doors.dfy ===
/** The nine articulated parts the door toggle drives, as angles in degrees:
    door and wheel rotations about y, spoiler and window about x, and the
    handle about z (its quaternion reduced to the angle about that axis). */
module Doors {
  import opened Tween

  datatype Parts = Parts(
    frontLeftDoor: real,
    frontRightDoor: real,
    backLeftDoor: real,
    backRightDoor: real,
    spoiler: real,
    upperWindow: real,
    wheelFrontLeft: real,
    wheelFrontRight: real,
    handle: real)

  /** The closed pose: every angle 0, the handle at the identity rotation. */
  const Rest: Parts := Parts(0.0, 0.0, 0.0, 0.0, 0.0, 0.0, 0.0, 0.0, 0.0)

  /** The open pose. */
  const OpenPose: Parts := Parts(-70.0, 70.0, -70.0, 70.0, -120.0, -10.0, -40.0, -40.0, -100.0)

  /** Every angle lies between its closed value 0 and its open value. */
  predicate InRange(p: Parts) {
    && Between(p.frontLeftDoor, OpenPose.frontLeftDoor, 0.0)
    && Between(p.frontRightDoor, OpenPose.frontRightDoor, 0.0)
    && Between(p.backLeftDoor, OpenPose.backLeftDoor, 0.0)
    && Between(p.backRightDoor, OpenPose.backRightDoor, 0.0)
    && Between(p.spoiler, OpenPose.spoiler, 0.0)
    && Between(p.upperWindow, OpenPose.upperWindow, 0.0)
    && Between(p.wheelFrontLeft, OpenPose.wheelFrontLeft, 0.0)
    && Between(p.wheelFrontRight, OpenPose.wheelFrontRight, 0.0)
    && Between(p.handle, OpenPose.handle, 0.0)
  }

  /** The targets a toggle computes from `doorOpen` at call time: all zero when
      the doors are open (so they close), the open pose otherwise. The door
      swing is computed once and negated for the right-hand doors. */
  function DoorTargets(doorOpen: bool): (p: Parts)
    ensures doorOpen ==> p == Rest
    ensures !doorOpen ==> p == OpenPose
    ensures p.frontRightDoor == -p.frontLeftDoor && p.backRightDoor == -p.backLeftDoor
    ensures InRange(p)
  {
    var swing := if doorOpen then 0.0 else -70.0;
    Parts(swing, -swing, swing, -swing,
          if doorOpen then 0.0 else -120.0,
          if doorOpen then 0.0 else -10.0,
          if doorOpen then 0.0 else -40.0,
          if doorOpen then 0.0 else -40.0,
          if doorOpen then 0.0 else -100.0)
  }

  /** One frame of the door animation: every part interpolated from its
      captured start to its target. At progress 1 the pose is the target
      exactly; for progress in [0, 1] a pose between in-range endpoints stays
      in range. */
  function LerpParts(from: Parts, to: Parts, t: real): (r: Parts)
    ensures t == 0.0 ==> r == from
    ensures t == 1.0 ==> r == to
    ensures InRange(from) && InRange(to) && 0.0 <= t <= 1.0 ==> InRange(r)
  {
    Parts(Lerp(from.frontLeftDoor, to.frontLeftDoor, t),
          Lerp(from.frontRightDoor, to.frontRightDoor, t),
          Lerp(from.backLeftDoor, to.backLeftDoor, t),
          Lerp(from.backRightDoor, to.backRightDoor, t),
          Lerp(from.spoiler, to.spoiler, t),
          Lerp(from.upperWindow, to.upperWindow, t),
          Lerp(from.wheelFrontLeft, to.wheelFrontLeft, t),
          Lerp(from.wheelFrontRight, to.wheelFrontRight, t),
          Lerp(from.handle, to.handle, t))
  }
}

=== FILE: invariants.dfy ===
/** What every reachable state of the coordinator satisfies, and the proof
    that every event keeps it. The invariant is what makes the interpolation
    well behaved: every animation started no later than the clock reads, so
    its progress lies in [0, 1]; every door animation runs between in-range
    poses, so every part angle (the handle included) stays between its closed
    and open values; and the door button is disabled in the rear view and
    matches the view flag whenever no view switch is in flight. */
module Invariants {
  import opened Base
  import opened Tween
  import opened Doors
  import opened Materials
  import opened Coordinator

  /** The three timeouts the coordinator ever schedules. */
  predicate KnownCue(t: Timer) {
    t == ToggleEngineCue || t == ZoomEngineCue || t == SpotlightCue
  }

  /** An animation record consistent with the clock `clock`. */
  predicate AnimValid(a: Anim, clock: real) {
    && a.start <= clock
    && (a.kind.DoorSwing? ==> InRange(a.kind.fromParts) && InRange(a.kind.toParts))
  }

  predicate AnimsValid(anims: seq<Anim>, clock: real) {
    forall k :: 0 <= k < |anims| ==> AnimValid(anims[k], clock)
  }

  predicate TimersValid(timers: seq<Timer>) {
    forall k :: 0 <= k < |timers| ==> KnownCue(timers[k])
  }

  predicate ButtonValid(v: ViewState, anims: seq<Anim>) {
    && (v.rearView ==> v.doorButtonDisabled)
    && (NoSwitchInFlight(anims) ==> v.doorButtonDisabled == v.rearView)
  }

  predicate Valid(s: State) {
    && InRange(s.door.parts)
    && AnimsValid(s.anims, s.env.clock)
    && TimersValid(s.timers)
    && ButtonValid(s.view, s.anims)
  }

  /** The state after binding: nothing in flight, doors at rest, front view
      with the button enabled. */
  lemma InitValid(isMobile: bool, painted: seq<Mesh>)
    ensures Valid(Init(isMobile, painted))
  {
  }

  /** In a valid state the progress of every animation in flight is in [0, 1]. */
  lemma ProgressInUnit(s: State, i: nat)
    requires Valid(s) && i < |s.anims|
    ensures 0.0 <= Progress(s.env.clock, s.anims[i].start) <= 1.0
  {
  }

  /** In a valid state the handle angle lies in [-100, 0] degrees, so the
      quaternion interpolation about z that the viewer performs never passes
      the half turn and agrees with interpolating the angle. */
  lemma HandleBounded(s: State)
    requires Valid(s)
    ensures -100.0 <= s.door.parts.handle <= 0.0
  {
  }

  /** Removing a finished chain keeps every remaining record valid. */
  lemma RemoveKeepsAnimsValid(anims: seq<Anim>, i: nat, clock: real)
    requires i < |anims| && AnimsValid(anims, clock)
    ensures AnimsValid(RemoveAt(anims, i), clock)
  {
  }

  /** Removing a chain that is not a view switch cannot end the last switch
      in flight. */
  lemma RemoveNonSwitch(anims: seq<Anim>, i: nat)
    requires i < |anims| && !anims[i].kind.ViewSwitch?
    ensures NoSwitchInFlight(RemoveAt(anims, i)) ==> NoSwitchInFlight(anims)
  {
    var r := RemoveAt(anims, i);
    if NoSwitchInFlight(r) {
      forall k | 0 <= k < |anims|
        ensures !anims[k].kind.ViewSwitch?
      {
        if k < i { assert anims[k] == r[k]; }
        else if k > i { assert anims[k] == r[k - 1]; }
      }
    }
  }

  lemma ToggleKeepsValid(s: State, isMobile: bool)
    requires Valid(s)
    ensures Valid(ToggleDoors(s, isMobile).next)
  {
  }

  lemma SceneKeepsValid(s: State)
    requires Valid(s)
    ensures Valid(AnimateScene(s).next)
  {
  }

  lemma AdvanceKeepsValid(s: State, i: nat)
    requires Valid(s) && i < |s.anims|
    ensures Valid(AdvanceAnimation(s, i).next)
  {
    var a := s.anims[i];
    var t := Progress(s.env.clock, a.start);
    ProgressInUnit(s, i);
    if t == 1.0 {
      RemoveKeepsAnimsValid(s.anims, i, s.env.clock);
      if !a.kind.ViewSwitch? {
        RemoveNonSwitch(s.anims, i);
      }
    }
    match a.kind
    case DoorSwing(_, _) =>
      assert AnimValid(a, s.env.clock);
      var n := AnimateAll(s, i).next;
      assert InRange(n.door.parts);
      assert n.door.doorOpen ==> TimersValid(s.timers + [SpotlightCue]);
    case CameraZoom(_, _) =>
      assert TimersValid(s.timers + [ZoomEngineCue]);
    case ViewSwitch(_, _, _, _) =>
  }

  lemma TimerKeepsValid(s: State, i: nat)
    requires Valid(s) && i < |s.timers|
    ensures Valid(RunTimer(s, i).next)
  {
  }

  lemma SwitchKeepsValid(s: State)
    requires Valid(s)
    ensures Valid(SwitchCameraView(s).next)
  {
    // The switch just appended keeps a switch in flight, so the button may
    // stay disabled whatever the view.
    var n := SwitchCameraView(s).next;
    assert n.anims[|n.anims| - 1].kind.ViewSwitch?;
  }

  /** Every event keeps the invariant. */
  lemma StepKeepsValid(s: State, e: Event)
    requires Valid(s)
    ensures Valid(Step(s, e).next)
  {
    match e
    case Elapse(dt) =>
      var n := Step(s, e).next;
      forall k | 0 <= k < |n.anims|
        ensures AnimValid(n.anims[k], n.env.clock)
      {
        assert AnimValid(s.anims[k], s.env.clock);
      }
    case Frame => SceneKeepsValid(s);
    case Advance(i) => if i < |s.anims| { AdvanceKeepsValid(s, i); }
    case FireTimer(i) => if i < |s.timers| { TimerKeepsValid(s, i); }
    case Toggle(m) => ToggleKeepsValid(s, m);
    case SwitchView => SwitchKeepsValid(s);
    case ChangeColor(_) =>
    case EnvironmentLoaded(_) =>
    case Orbit(_, _) =>
    case CameraSoundLoaded =>
    case EngineSoundLoaded =>
  }

  /** Every run of events keeps the invariant; in particular every state
      reachable from `Init` satisfies it. */
  lemma {:induction false} RunKeepsValid(s: State, es: seq<Event>)
    requires Valid(s)
    ensures Valid(Run(s, es).next)
    decreases |es|
  {
    if |es| > 0 {
      StepKeepsValid(s, es[0]);
      RunKeepsValid(Step(s, es[0]).next, es[1..]);
    }
  }

  /** The clock never runs backwards over a run. */
  lemma {:induction false} RunClockMonotone(s: State, es: seq<Event>)
    ensures s.env.clock <= Run(s, es).next.env.clock
    decreases |es|
  {
    if |es| > 0 {
      RunClockMonotone(Step(s, es[0]).next, es[1..]);
    }
  }

  /** `closeDoorsNow` also keeps the invariant. */
  lemma CloseDoorsNowKeepsValid(s: State)
    requires Valid(s)
    ensures Valid(CloseDoorsNow(s))
  {
  }

  /** Running two event lists one after the other is running their
      concatenation. */
  lemma {:induction false} RunAppend(s: State, a: seq<Event>, b: seq<Event>)
    ensures Run(s, a + b).next == Run(Run(s, a).next, b).next
    decreases |a|
  {
    if |a| == 0 {
      assert a + b == b;
    } else {
      assert (a + b)[0] == a[0] && (a + b)[1..] == a[1..] + b;
      RunAppend(Step(s, a[0]).next, a[1..], b);
    }
  }

  /** A settled state: nothing in flight, front view, and the parts at the
      pose the last toggle drove them to, the one that matches the door flag. */
  predicate Settled(s: State) {
    && s.anims == []
    && !s.view.rearView
    && s.door.parts == DoorTargets(!s.door.doorOpen)
  }

  /** One toggle, half a second, then both chains run to completion: the
      zoom (index 0) before the door animation when `zoomFirst`, which is the
      order the browser runs their frames in, otherwise the door animation
      (index 1) before the zoom. */
  function Cycle(isMobile: bool, zoomFirst: bool): seq<Event> {
    if zoomFirst then [Toggle(isMobile), Elapse(0.5), Advance(0), Advance(0)]
    else [Toggle(isMobile), Elapse(0.5), Advance(1), Advance(0)]
  }

  /** The toggle of a settled state with the flag clear starts exactly the
      zoom and then the door animation. */
  lemma CycleToggle(s: State, isMobile: bool)
    requires Settled(s) && !s.door.forceClose
    ensures var n := Step(s, Toggle(isMobile)).next;
      && n.door == s.door && n.view == s.view && n.env == s.env && n.lights == s.lights
      && n.timers == s.timers + (if !s.door.doorOpen && s.env.engineSoundLoaded then [ToggleEngineCue] else [])
      && n.anims == [Anim(s.env.clock, CameraZoom(s.view.camera, ZoomDestination(s, isMobile))),
                     Anim(s.env.clock, DoorSwing(s.door.parts, DoorTargets(s.door.doorOpen)))]
  {
  }

  /** Half a second after it started, the door animation `i` completes. */
  lemma CycleDoor(s: State, i: nat, d: Parts, start: real)
    requires i < |s.anims| && s.anims[i] == Anim(start, DoorSwing(s.door.parts, d))
    requires s.env.clock == start + 0.5
    ensures var n := Step(s, Advance(i)).next;
      && n.door == s.door.(doorOpen := !s.door.doorOpen, parts := d)
      && n.view == s.view && n.env == s.env && n.anims == RemoveAt(s.anims, i)
      && n.timers == s.timers + (if !s.door.doorOpen then [SpotlightCue] else [])
      && n.lights == (if s.door.doorOpen then LightsOff else s.lights)
  {
    assert Progress(s.env.clock, start) == 1.0;
  }

  /** Half a second after it started, the zoom `i` completes, at its
      destination. */
  lemma CycleZoom(s: State, i: nat, from: Vec3, to: Vec3, start: real)
    requires i < |s.anims| && s.anims[i] == Anim(start, CameraZoom(from, to))
    requires s.env.clock == start + 0.5
    ensures var n := Step(s, Advance(i)).next;
      && n.door == s.door && n.view == s.view.(camera := to) && n.env == s.env
      && n.anims == RemoveAt(s.anims, i) && n.lights == s.lights
      && n.timers == s.timers + (if !s.door.doorOpen && s.env.engineSoundLoaded then [ZoomEngineCue] else [])
  {
    assert Progress(s.env.clock, start) == 1.0;
  }

  /** From a settled state with the forced-close flag clear, a full toggle
      cycle, in either completion order, negates the door flag, drives the
      parts to the targets fixed by the old flag, moves the camera to the zoom
      destination, and ends settled again. Closing turns the lights off;
      opening schedules the spotlight timeout. With the engine sound loaded,
      opening also schedules the toggle's engine cue, and the zoom's own cue
      follows whenever the zoom ends while the door flag still says closed:
      when opening with the zoom first, or when closing with the door
      animation first. */
  lemma HalfCycle(s: State, isMobile: bool, zoomFirst: bool)
    requires Settled(s) && !s.door.forceClose
    ensures var n := Run(s, Cycle(isMobile, zoomFirst)).next;
      && Settled(n)
      && n.door == s.door.(doorOpen := !s.door.doorOpen, parts := DoorTargets(s.door.doorOpen))
      && n.view == s.view.(camera := ZoomDestination(s, isMobile))
      && n.env == s.env.(clock := s.env.clock + 0.5)
      && n.lights == (if s.door.doorOpen then LightsOff else s.lights)
      && var opening := !s.door.doorOpen; var loaded := s.env.engineSoundLoaded;
         n.timers == s.timers + (if opening && loaded then [ToggleEngineCue] else [])
                              + (if loaded && zoomFirst == opening then [ZoomEngineCue] else [])
                              + (if opening then [SpotlightCue] else [])
  {
    if zoomFirst { CycleZoomThenDoor(s, isMobile); } else { CycleDoorThenZoom(s, isMobile); }
  }

  /** `HalfCycle` when the zoom ends first. */
  lemma CycleZoomThenDoor(s: State, isMobile: bool)
    requires Settled(s) && !s.door.forceClose
    ensures var n := Run(s, Cycle(isMobile, true)).next;
      && Settled(n)
      && n.door == s.door.(doorOpen := !s.door.doorOpen, parts := DoorTargets(s.door.doorOpen))
      && n.view == s.view.(camera := ZoomDestination(s, isMobile))
      && n.env == s.env.(clock := s.env.clock + 0.5)
      && n.lights == (if s.door.doorOpen then LightsOff else s.lights)
      && var opening := !s.door.doorOpen; var loaded := s.env.engineSoundLoaded;
         n.timers == s.timers + (if opening && loaded then [ToggleEngineCue] else [])
                              + (if loaded && opening then [ZoomEngineCue] else [])
                              + (if opening then [SpotlightCue] else [])
  {
    var es := Cycle(isMobile, true);
    CycleToggle(s, isMobile);
    var s1 := Step(s, es[0]).next;
    var s2 := Step(s1, es[1]).next;
    CycleZoom(s2, 0, s.view.camera, ZoomDestination(s, isMobile), s.env.clock);
    var s3 := Step(s2, es[2]).next;
    assert s3.anims == [s1.anims[1]];
    CycleDoor(s3, 0, DoorTargets(s.door.doorOpen), s.env.clock);
    var s4 := Step(s3, es[3]).next;
    assert s4.anims == [];
    assert Run(s4, es[4..]).next == s4;
    assert Run(s3, es[3..]).next == s4;
    assert Run(s2, es[2..]).next == s4;
    assert Run(s1, es[1..]).next == s4;
  }

  /** `HalfCycle` when the door animation ends first. */
  lemma CycleDoorThenZoom(s: State, isMobile: bool)
    requires Settled(s) && !s.door.forceClose
    ensures var n := Run(s, Cycle(isMobile, false)).next;
      && Settled(n)
      && n.door == s.door.(doorOpen := !s.door.doorOpen, parts := DoorTargets(s.door.doorOpen))
      && n.view == s.view.(camera := ZoomDestination(s, isMobile))
      && n.env == s.env.(clock := s.env.clock + 0.5)
      && n.lights == (if s.door.doorOpen then LightsOff else s.lights)
      && var opening := !s.door.doorOpen; var loaded := s.env.engineSoundLoaded;
         n.timers == s.timers + (if opening && loaded then [ToggleEngineCue] else [])
                              + (if loaded && !opening then [ZoomEngineCue] else [])
                              + (if opening then [SpotlightCue] else [])
  {
    var es := Cycle(isMobile, false);
    CycleToggle(s, isMobile);
    var s1 := Step(s, es[0]).next;
    var s2 := Step(s1, es[1]).next;
    CycleDoor(s2, 1, DoorTargets(s.door.doorOpen), s.env.clock);
    var s3 := Step(s2, es[2]).next;
    assert s3.anims == [s1.anims[0]];
    CycleZoom(s3, 0, s.view.camera, ZoomDestination(s, isMobile), s.env.clock);
    var s4 := Step(s3, es[3]).next;
    assert s4.anims == [];
    assert Run(s4, es[4..]).next == s4;
    assert Run(s3, es[3..]).next == s4;
    assert Run(s2, es[2..]).next == s4;
    assert Run(s1, es[1..]).next == s4;
  }

  /** Toggling twice, each time letting the cycle finish in either order,
      gives back the door state of any settled state with the forced-close
      flag clear. */
  lemma RoundTrip(s: State, m1: bool, z1: bool, m2: bool, z2: bool)
    requires Settled(s) && !s.door.forceClose
    ensures Run(s, Cycle(m1, z1) + Cycle(m2, z2)).next.door == s.door
  {
    HalfCycle(s, m1, z1);
    HalfCycle(Run(s, Cycle(m1, z1)).next, m2, z2);
    RunAppend(s, Cycle(m1, z1), Cycle(m2, z2));
  }
}

=== FILE: materials.dfy ===
/** The paint bookkeeping: `applyPaintMaterial` gives the shared paint
    material to every present part and records it in `paintedParts`;
    `changeColor` recolors the painted parts; the environment callback hangs
    the loaded environment map on them. Colors and textures are opaque
    values; a material is reduced to the two fields these operations write. */
module Materials {
  import opened Base

  type Color = int
  type TextureId = nat

  datatype Material = Material(color: Color, envMap: Option<TextureId>)
  datatype Mesh = Mesh(name: string, material: Option<Material>)

  /** The shared paint material before any recolor or environment map. */
  const PaintMaterial: Material := Material(0x2c2c2c, None)

  /** `m` wearing `paint`. */
  function Painted(m: Mesh, paint: Material): Mesh {
    m.(material := Some(paint))
  }

  /** Reference definition: the painted meshes contributed by `parts`, one per
      present entry, in input order. */
  function PaintedFrom(parts: seq<Option<Mesh>>, paint: Material): seq<Mesh>
    decreases |parts|
  {
    if |parts| == 0 then []
    else
      PaintedFrom(parts[..|parts| - 1], paint)
      + (match parts[|parts| - 1] case Some(m) => [Painted(m, paint)] case None => [])
  }

  /** The number of present (non-null) entries. */
  function CountPresent(parts: seq<Option<Mesh>>): nat
    decreases |parts|
  {
    if |parts| == 0 then 0
    else CountPresent(parts[..|parts| - 1]) + (if parts[|parts| - 1].Some? then 1 else 0)
  }

  /** Every mesh in `painted` wears exactly `m`. */
  predicate SharesMaterial(painted: seq<Mesh>, m: Material) {
    forall i :: 0 <= i < |painted| ==> painted[i].material == Some(m)
  }

  /** `applyPaintMaterial`: absent entries are skipped (left absent, not
      recorded); every present entry gets `paint` and is appended to the
      painted list after the meshes already there. */
  method ApplyPaintMaterial(painted: seq<Mesh>, parts: seq<Option<Mesh>>, paint: Material)
    returns (painted': seq<Mesh>, parts': seq<Option<Mesh>>)
    ensures |parts'| == |parts|
    ensures forall i :: 0 <= i < |parts| && parts[i].None? ==> parts'[i].None?
    ensures forall i :: 0 <= i < |parts| && parts[i].Some? ==> parts'[i] == Some(Painted(parts[i].value, paint))
    ensures painted' == painted + PaintedFrom(parts, paint)
  {
    painted' := painted;
    parts' := [];
    var i := 0;
    while i < |parts|
      invariant 0 <= i <= |parts|
      invariant |parts'| == i
      invariant forall k :: 0 <= k < i && parts[k].None? ==> parts'[k].None?
      invariant forall k :: 0 <= k < i && parts[k].Some? ==> parts'[k] == Some(Painted(parts[k].value, paint))
      invariant painted' == painted + PaintedFrom(parts[..i], paint)
    {
      assert parts[..i + 1][..i] == parts[..i];
      match parts[i] {
        case Some(m) =>
          painted' := painted' + [Painted(m, paint)];
          parts' := parts' + [Some(Painted(m, paint))];
        case None =>
          parts' := parts' + [None];
      }
      i := i + 1;
    }
    assert parts[..|parts|] == parts;
  }

  /** The painted list grows by exactly the number of present entries: no
      entry is dropped and none is deduplicated. */
  lemma {:induction false} PaintedFromCount(parts: seq<Option<Mesh>>, paint: Material)
    ensures |PaintedFrom(parts, paint)| == CountPresent(parts)
    decreases |parts|
  {
    if |parts| > 0 {
      PaintedFromCount(parts[..|parts| - 1], paint);
    }
  }

  /** Order: the present entry at index `i` lands at the position given by the
      number of present entries before it. */
  lemma {:induction false} PaintedFromOrder(parts: seq<Option<Mesh>>, paint: Material, i: nat)
    requires i < |parts| && parts[i].Some?
    ensures CountPresent(parts[..i]) < |PaintedFrom(parts, paint)|
    ensures PaintedFrom(parts, paint)[CountPresent(parts[..i])] == Painted(parts[i].value, paint)
    decreases |parts|
  {
    var n := |parts| - 1;
    var init := parts[..n];
    if i == n {
      assert parts[..i] == init;
      PaintedFromCount(init, paint);
    } else {
      assert init[..i] == parts[..i];
      assert init[i] == parts[i];
      PaintedFromOrder(init, paint, i);
    }
  }

  /** Every recorded mesh wears the one paint material. */
  lemma {:induction false} PaintedFromShares(parts: seq<Option<Mesh>>, paint: Material)
    ensures SharesMaterial(PaintedFrom(parts, paint), paint)
    decreases |parts|
  {
    if |parts| > 0 {
      PaintedFromShares(parts[..|parts| - 1], paint);
    }
  }

  /** `changeColor`: every painted mesh that has a material gets the new color;
      its environment map and name are kept, and meshes without a material are
      left untouched. */
  function Recolor(painted: seq<Mesh>, hex: Color): (r: seq<Mesh>)
    ensures |r| == |painted|
    ensures forall i :: 0 <= i < |r| && painted[i].material.None? ==> r[i] == painted[i]
    ensures forall i :: 0 <= i < |r| && painted[i].material.Some? ==>
      r[i] == painted[i].(material := Some(painted[i].material.value.(color := hex)))
    decreases |painted|
  {
    if |painted| == 0 then []
    else
      var m := painted[0];
      var m' := if m.material.Some? then m.(material := Some(m.material.value.(color := hex))) else m;
      [m'] + Recolor(painted[1..], hex)
  }

  /** The environment callback: every painted mesh that has a material gets the
      environment map; its color and name are kept, and meshes without a
      material are left untouched. */
  function SetEnvMap(painted: seq<Mesh>, env: TextureId): (r: seq<Mesh>)
    ensures |r| == |painted|
    ensures forall i :: 0 <= i < |r| && painted[i].material.None? ==> r[i] == painted[i]
    ensures forall i :: 0 <= i < |r| && painted[i].material.Some? ==>
      r[i] == painted[i].(material := Some(painted[i].material.value.(envMap := Some(env))))
    decreases |painted|
  {
    if |painted| == 0 then []
    else
      var m := painted[0];
      var m' := if m.material.Some? then m.(material := Some(m.material.value.(envMap := Some(env)))) else m;
      [m'] + SetEnvMap(painted[1..], env)
  }

  /** The painted meshes all share one material object in the viewer; a
      recolor keeps them sharing one (recolored) material, so updating each
      mesh's copy agrees with updating the shared object once. */
  lemma RecolorKeepsSharing(painted: seq<Mesh>, m: Material, hex: Color)
    requires SharesMaterial(painted, m)
    ensures SharesMaterial(Recolor(painted, hex), m.(color := hex))
  {
  }

  /** Likewise for the environment map. */
  lemma SetEnvMapKeepsSharing(painted: seq<Mesh>, m: Material, env: TextureId)
    requires SharesMaterial(painted, m)
    ensures SharesMaterial(SetEnvMap(painted, env), m.(envMap := Some(env)))
  {
  }

  /** A recolor and the environment callback write different fields, so the
      order in which they happen does not matter. */
  lemma RecolorEnvMapCommute(painted: seq<Mesh>, hex: Color, env: TextureId)
    ensures Recolor(SetEnvMap(painted, env), hex) == SetEnvMap(Recolor(painted, hex), env)
  {
  }

  /** Recoloring twice is recoloring once with the later color. */
  lemma RecolorLastWins(painted: seq<Mesh>, first: Color, second: Color)
    ensures Recolor(Recolor(painted, first), second) == Recolor(painted, second)
  {
  }

  /** Hanging a second environment map replaces the first. */
  lemma SetEnvMapLastWins(painted: seq<Mesh>, first: TextureId, second: TextureId)
    ensures SetEnvMap(SetEnvMap(painted, first), second) == SetEnvMap(painted, second)
  {
  }

  /** Recoloring a concatenation recolors each part. */
  lemma RecolorAppend(a: seq<Mesh>, b: seq<Mesh>, hex: Color)
    ensures Recolor(a + b, hex) == Recolor(a, hex) + Recolor(b, hex)
  {
    var l := Recolor(a + b, hex);
    var r := Recolor(a, hex) + Recolor(b, hex);
    forall k | 0 <= k < |l|
      ensures l[k] == r[k]
    {
      if k < |a| { assert (a + b)[k] == a[k]; } else { assert (a + b)[k] == b[k - |a|]; }
    }
  }

  /** Recoloring the meshes just painted with `paint` is painting them with
      the recolored material: the per-mesh updates of the model agree with
      changing the one shared material object. */
  lemma {:induction false} PaintedFromRecolor(parts: seq<Option<Mesh>>, paint: Material, hex: Color)
    ensures Recolor(PaintedFrom(parts, paint), hex) == PaintedFrom(parts, paint.(color := hex))
    decreases |parts|
  {
    if |parts| > 0 {
      var init := parts[..|parts| - 1];
      PaintedFromRecolor(init, paint, hex);
      var last := match parts[|parts| - 1] case Some(m) => [Painted(m, paint)] case None => [];
      RecolorAppend(PaintedFrom(init, paint), last, hex);
    }
  }

  /** In the viewer: after `applyPaintMaterial` and a `changeColor(hex)`,
      every painted part wears the paint of color `hex` with no environment
      map yet. */
  lemma ViewerPaintRecolor(parts: seq<Option<Mesh>>, hex: Color)
    ensures SharesMaterial(Recolor(PaintedFrom(parts, PaintMaterial), hex), Material(hex, None))
  {
    PaintedFromRecolor(parts, PaintMaterial, hex);
    PaintedFromShares(parts, Material(hex, None));
  }
}

=== FILE: profile.dfy ===
/** The device-profile choice made by `setupInitialCameraPosition` and the
    zoom poses `toggleDoors` picks when the doors start to open. The
    form-factor test (viewport width, user agent) is an input here. */
module DeviceProfile {
  import opened Tween

  /** The camera poses bound once at startup: the front pose the viewer
      starts in and returns to, and the rear pose of the second viewpoint,
      each with the orbit target the camera looks at. */
  datatype Profile = Profile(frontPos: Vec3, frontTarget: Vec3, rearPos: Vec3, rearTarget: Vec3)

  /** The profile for a compact (`isMobile`) or a standard screen. The front
      pose sits on the negative-z side, where the frame step never forces the
      doors closed, and the rear pose on the positive-z side, where it does;
      both are above the floor clamp at height 1. The compact profile pans
      to the same target from both sides; the standard one shifts the rear
      target sideways. */
  function Resolve(isMobile: bool): (p: Profile)
    ensures p.frontPos.z < 0.0 < p.rearPos.z
    ensures 1.0 <= p.frontPos.y && 1.0 <= p.rearPos.y
    ensures isMobile <==> p.frontTarget == p.rearTarget
    ensures p.frontTarget.x == 0.0 && p.frontTarget.z == 0.0
  {
    if isMobile then
      Profile(Vec3(-120.0, 20.0, -500.0), Vec3(0.0, 2.0, 0.0),
              Vec3(45.0, 12.0, 200.0), Vec3(0.0, 2.0, 0.0))
    else
      Profile(Vec3(-33.41, 13.46, -107.95), Vec3(0.0, 6.0, 0.0),
              Vec3(29.490, 10.450, 98.363), Vec3(-2.0, 6.0, 0.0))
  }

  /** Where the camera zooms to while the doors open. It stays on the front
      side (so opening never triggers the forced close) at the same height on
      both screens, and differs from the front pose it returns to on closing. */
  function ZoomPos(isMobile: bool): (p: Vec3)
    ensures p.z < 0.0
    ensures p.y == 17.28
    ensures p != Resolve(isMobile).frontPos
  {
    if isMobile then Vec3(-44.81, 17.28, -350.0) else Vec3(-30.0, 17.28, -130.0)
  }
}

=== FILE: scenarios.dfy ===
/** Concrete runs of the coordinator on the desktop profile, with no sound
    loaded and nothing painted. They exhibit the behaviour of the viewer as
    written: a full open/close cycle returns to the initial state; two quick
    toggles each flip the door flag, leaving it false while the doors stand
    open; the render loop's auto-close fires on every frame until a closing
    animation ends, and the second closing animation reopens the flag; and a
    view switch to the rear disables the door toggle. */
module Scenarios {
  import opened Tween
  import opened DeviceProfile
  import opened Doors
  import opened Coordinator

  const Start: State := Init(false, [])
  const Desktop: Profile := Resolve(false)

  /** The state the opening run ends in: doors at the open pose with the flag
      set, camera at the desktop zoom pose, lights on, nothing in flight. */
  const Opened: State :=
    Start.(door := DoorState(true, false, OpenPose),
           view := Start.view.(camera := ZoomPos(false)),
           lights := LightsOn,
           env := Start.env.(clock := 0.5))

  /** Toggle, let half a second pass, run the door chain (index 1, after the
      zoom) to completion, then the zoom, then the spotlight timeout. */
  const OpenEvents: seq<Event> := [Toggle(false), Elapse(0.5), Advance(1), Advance(0), FireTimer(0)]

  lemma OpenScenario()
    ensures Run(Start, OpenEvents) == StepResult(Opened, [])
  {
  }

  /** Toggle again, let half a second pass, run the door chain then the zoom. */
  const CloseEvents: seq<Event> := [Toggle(false), Elapse(0.5), Advance(1), Advance(0)]

  /** Closing again from the open state returns to the initial state, one
      second later. */
  lemma CloseScenario()
    ensures Run(Opened, CloseEvents) == StepResult(Start.(env := Start.env.(clock := 1.0)), [])
  {
  }

  /** Two toggles before the first door animation ends, then both door
      chains (indices 1 and 3, the second at index 2 once the first is gone)
      run to completion and the spotlight timeout fires. */
  const DoubleToggleEvents: seq<Event> :=
    [Toggle(false), Toggle(false), Elapse(0.5), Advance(1), Advance(2), FireTimer(0)]

  /** Both toggles read the door flag as false and drive to the open pose;
      each completion negates the flag. The doors stand open with the lights
      on, yet the flag says closed, so the next toggle drives to the open
      pose again. */
  lemma DoubleToggleDesync()
    ensures var n := Run(Start, DoubleToggleEvents).next;
      && !n.door.doorOpen
      && n.door.parts == OpenPose
      && n.lights == LightsOn
      && DoorTargets(n.door.doorOpen) == OpenPose
  {
  }

  /** The open state with the camera orbited round to the rear side. */
  const Orbited: State := Opened.(view := Opened.view.(camera := Vec3(0.0, 10.0, 100.0)))

  /** Two frames with the camera behind the car, half a second, then both
      closing chains complete. */
  const ForcedEvents: seq<Event> := [Frame, Frame, Elapse(0.5), Advance(0), Advance(0)]

  /** The forced-close flag is cleared within the toggle, so the second frame
      starts a second closing animation while the door flag is still set. The
      first completion clears the door flag, the second sets it again: the
      doors stand closed, the flag says open, and the spotlights are
      scheduled to come on. No zoom and no sound is ever started. */
  lemma ForcedCloseReraise()
    ensures var n := Run(Orbited, ForcedEvents);
      && n.effects == []
      && n.next.door == DoorState(true, false, Rest)
      && n.next.view == Orbited.view
      && n.next.anims == []
      && n.next.timers == [SpotlightCue]
  {
  }

  /** The state after switching to the rear view. */
  const AtRear: State :=
    Start.(view := ViewState(true, true, Desktop.rearPos, Desktop.rearTarget), env := Start.env.(clock := 0.5))

  const RearEvents: seq<Event> := [SwitchView, Elapse(0.5), Advance(0), Toggle(false)]

  /** Switching to the rear view disables the door button and moves camera
      and orbit target to the rear pose; a toggle there changes nothing and
      only warns. */
  lemma RearViewScenario()
    ensures Run(Start, RearEvents) == StepResult(AtRear, [RearViewWarning])
  {
  }
}

=== FILE: tween.dfy ===
/** The interpolation rule every animation in the viewer shares: progress is
    the elapsed clock time over a half-second duration, capped at 1, and each
    value is a linear interpolation between its captured start and its target.
    Reals stand in for JavaScript doubles. */
module Tween {

  datatype Vec3 = Vec3(x: real, y: real, z: real)

  /** Every door, zoom and view-switch transition lasts half a clock second. */
  const Duration: real := 0.5

  /** `v` lies on the closed segment between `a` and `b`. */
  predicate Between(v: real, a: real, b: real) {
    (a <= v <= b) || (b <= v <= a)
  }

  /** Progress of a transition started at `start`, read at clock time `now`:
      `min((now - start) / Duration, 1)`. */
  function Progress(now: real, start: real): (t: real)
    ensures t <= 1.0
    ensures start <= now ==> 0.0 <= t
    ensures t == 1.0 <==> start + Duration <= now
    ensures t < 1.0 ==> now == start + t * Duration
  {
    var raw := (now - start) / Duration;
    if raw <= 1.0 then raw else 1.0
  }

  /** Progress never goes backwards as the clock advances. */
  lemma ProgressMonotone(start: real, now: real, later: real)
    requires now <= later
    ensures Progress(now, start) <= Progress(later, start)
  {
  }

  /** Scalar interpolation in the form `(1 - t) * a + t * b`. */
  function Lerp(a: real, b: real, t: real): (r: real)
    ensures t == 0.0 ==> r == a
    ensures t == 1.0 ==> r == b
    ensures 0.0 <= t <= 1.0 ==> Between(r, a, b)
  {
    var r := (1.0 - t) * a + t * b;
    if 0.0 <= t <= 1.0 then
      if a <= b then
        MulNonNegative(t, b - a);
        MulNonNegative(1.0 - t, b - a);
        r
      else
        MulNonNegative(t, a - b);
        MulNonNegative(1.0 - t, a - b);
        r
    else r
  }

  lemma MulNonNegative(x: real, y: real)
    requires 0.0 <= x && 0.0 <= y
    ensures 0.0 <= x * y
  {
  }

  /** The render loop's floor guard: a camera below height 1 is lifted to 1;
      nothing else moves. */
  function ClampToFloor(c: Vec3): (r: Vec3)
    ensures 1.0 <= r.y
    ensures r.x == c.x && r.z == c.z
    ensures 1.0 <= c.y ==> r == c
    ensures c.y < 1.0 ==> r.y == 1.0
  {
    if c.y < 1.0 then c.(y := 1.0) else c
  }

  /** Component-wise interpolation of two points, in the form `a + (b - a) * t`. */
  function LerpVec(a: Vec3, b: Vec3, t: real): (r: Vec3)
    ensures t == 0.0 ==> r == a
    ensures t == 1.0 ==> r == b
  {
    Vec3(a.x + (b.x - a.x) * t, a.y + (b.y - a.y) * t, a.z + (b.z - a.z) * t)
  }

  /** The two interpolation forms the viewer uses agree on reals: each
      coordinate of `LerpVec` is the scalar `Lerp` of that coordinate. */
  lemma LerpVecAgreesWithLerp(a: Vec3, b: Vec3, t: real)
    ensures LerpVec(a, b, t) == Vec3(Lerp(a.x, b.x, t), Lerp(a.y, b.y, t), Lerp(a.z, b.z, t))
  {
  }
}
